=== FILE: README.md ===
# Plugin value translation layer of quiche (pluginop fork)

This project models, in Dafny, the translation layer in `quiche/src/plugin.rs`. The layer sits
between quiche's internal QUIC values and `PluginVal`, the value type that plugins see.

- **ACK ranges.** quiche keeps acknowledged packets as an ascending list of half-open ranges
  `[start, end)`. The frame encoder turns that list into the fields of section 19.3 of RFC 9000:
  `largest_acknowledged`, `first_ack_range`, `ack_range_count`, and the (Gap, ACK Range Length)
  pairs, from the highest range down. The model has a function (`AckRanges.EncodeAckRanges`)
  and a method with the source's `while let` loop (`AckRanges.EncodeAckRangesLoop`), both with
  Rust's checked `u64` subtraction. Its inverse is `AckRanges.DecodeAckRanges`, the
  reconstruction that section 19.3.1 of RFC 9000 prescribes. Round trips are proved in both
  directions.
- **Frames.** `FrameCodec.EncodeFrame` maps `frame::Frame` to `quic::Frame`.
  `FrameCodec.DecodeFrame` maps a `PluginVal` back and fails with `BadFrame` on anything that
  is not a frame value. Every arm that reaches `todo!()` returns `Unsupported`, so both
  functions are total.
- **Headers, epochs, packet types.** `HeaderCodec` maps `packet::Header`, `packet::Epoch` and
  `packet::Type` to plugin values. The header's `first_byte()` result is given as an input.
- **Connection accessor.** `ConnectionAccess` models `get_connection` and `set_connection` over a
  record that holds `max_tx_data`. bincode's serializer and deserializer are function
  parameters that may fail.

Rust integers are bounded subset types (`Integers`). The target is taken to be 64-bit, and every
`as` cast is written out: `usize as u64` keeps the value, `u64 as usize` reduces mod 2^64, and
`usize as u8` reduces mod 256. A Rust panic becomes an error value: `NoRanges` for the empty ACK
range list, `Underflow` for a subtraction that a checked build would trap, and `Unsupported`
for `todo!()`.

Three facts about the code shape the model:

- A non-frame value is rejected with `BadFrame`; there is no separate wrong-kind error.
- ACK decoding, PATH_CHALLENGE/PATH_RESPONSE encoding and the payload-carrying frames are
  `todo!()` and so are `Unsupported`.
- get and set reach only `MaxTxData`.

## Model

| member | source | states |
|---|---|---|
| AckRanges.EncodeAckRanges | quiche/src/plugin.rs:107-126 | Fails with NoRanges exactly on the empty list and succeeds exactly on non-empty well-formed lists (ascending, non-empty, at least one missing packet between ranges). On success: largest_acknowledged is the top range's end - 1, first_ack_range is largest_acknowledged - top.start, ack_range_count is len - 1, and the k-th pair read by the RFC 9000 19.3.1 rules gives back the k-th range below the top. |
| AckRanges.EncodeLower | quiche/src/plugin.rs:115-126 | The loop over the lower ranges, highest first, fails (Underflow) unless the ranges are well formed and below the previous smallest packet. It emits one pair per range, and each pair describes its range relative to the range above. |
| AckRanges.EncodeAckRangesLoop | quiche/src/plugin.rs:107-126 | The source's `while let` loop over `next_back()`, with its checked subtractions, returns exactly the result of EncodeAckRanges, error cases included. |
| AckRanges.LowerCountBound | quiche/src/plugin.rs:108 | A well-formed list has no more ranges than its smallest packet bound, so `ack_range_count` always fits a u64. |
| AckRanges.EncodeThenDecode | quiche/src/plugin.rs:102-126 | For every non-empty well-formed list, the encoding succeeds, and reconstructing the list from the encoded fields by the RFC rules returns the original list. |
| AckRanges.DecodeThenEncode | quiche/src/plugin.rs:102-126 | Every field set that reconstructs at all yields a non-empty well-formed list whose encoding is exactly that field set, so the encoding is a bijection onto the valid field sets. |
| AckRanges.LargestAcknowledgedIsMaximum | quiche/src/plugin.rs:111-113 | largest_acknowledged is acknowledged, no acknowledged packet exceeds it, and every packet within first_ack_range below it is acknowledged. |
| AckRanges.AckExample | quiche/src/plugin.rs:107-126 | [5,8) and [10,13) encode to largest 12, first range 2, count 1 and the single pair (gap 1, length 2), and those fields reconstruct the two ranges. |
| FrameCodec.EncodeFrame | quiche/src/plugin.rs:92-319 | Succeeds exactly on the fifteen frames whose arm completes, and always yields a frame value. It never reports BadFrame. An ACK frame reports the range-encoding failure, with its cause, exactly when its range list cannot be encoded; otherwise it is Unsupported. |
| FrameCodec.DecodeFrame | quiche/src/plugin.rs:327-411 | Returns BadFrame exactly for values that are not `QUIC(Frame(_))`. Succeeds exactly on the fifteen plugin frame kinds whose arm completes. Every other failure is Unsupported. |
| FrameCodec.EncodeThenDecode | quiche/src/plugin.rs:96-407 | Decoding the encoding of every supported frame except STREAMS_BLOCKED (unidirectional) returns the frame itself. This includes Padding, whose length survives the usize/u64 casts. |
| FrameCodec.StreamsBlockedUniDecodesAsBidi | quiche/src/plugin.rs:241-245 | As written, StreamsBlockedUni(limit) encodes to a bidirectional STREAMS_BLOCKED and decodes back as StreamsBlockedBidi(limit), not as itself. |
| FrameCodec.EncodeFrameCorrected | quiche/src/plugin.rs:235-245 | The encoder with the unidirectional flag set for StreamsBlockedUni. It succeeds on the same frames, and it agrees with EncodeFrame on every other frame. |
| FrameCodec.CorrectedEncodeThenDecode | quiche/src/plugin.rs:96-407 | With the corrected encoder, every supported frame, StreamsBlockedUni included, decodes back to itself. |
| FrameCodec.DecodeThenEncode | quiche/src/plugin.rs:338-407 | Every decodable plugin frame other than PATH_CHALLENGE and PATH_RESPONSE re-encodes, with the corrected encoder, to exactly the value it came from. |
| FrameCodec.PathDataBigEndian | quiche/src/plugin.rs:396-401 | PATH_CHALLENGE and PATH_RESPONSE data decode to the 8-byte big-endian array whose value is the original u64. Every 8-byte array decodes back to itself from its own value. |
| BigEndian.U64ToBeBytes | quiche/src/plugin.rs:397 | `to_be_bytes` gives 8 bytes whose big-endian value is the input. |
| HeaderCodec.EncodeHeader | quiche/src/plugin.rs:420-476 | The result is a header value. Its version is absent exactly for Short headers, 0 for Version Negotiation, and the header's own version for long headers. first is `first_byte()` or 0. ext is always present with the packet number, the key phase, no token, and the packet-number length reduced mod 256 (`as u8`), which is unchanged when it fits a byte. The dcid is the placeholder handle and there are no scid or supported versions. |
| HeaderCodec.LongHeaderTypeOnlyInFirstByte | quiche/src/plugin.rs:459-472 | Two long headers that differ only in their packet type encode to the same value. |
| HeaderCodec.HeaderKeepsPacketNumberFields | quiche/src/plugin.rs:437-471 | Headers with equal encodings agree on packet number, key phase and being Short, and on packet-number length modulo 256; they agree on the exact length when both lengths fit a byte. |
| HeaderCodec.EncodeEpoch | quiche/src/plugin.rs:484-496 | Yields a packet-number-space value from which the epoch is recovered. |
| HeaderCodec.EpochBijective | quiche/src/plugin.rs:488-493 | The epoch mapping is injective, and every packet-number space is the image of an epoch. |
| HeaderCodec.EncodePacketType | quiche/src/plugin.rs:511-526 | Yields a packet-type value from which the quiche packet type is recovered. |
| HeaderCodec.PacketTypeBijective | quiche/src/plugin.rs:515-523 | The packet-type mapping is injective, and every plugin packet type is the image of a quiche type. |
| PluginValues.AsU64 | quiche/src/plugin.rs:67 | The conversion to u64 succeeds exactly on the U64 variant, and it returns that value. |
| ConnectionAccess.FieldValue | quiche/src/plugin.rs:53-56 | Only MaxTxData has a value, and it is a u64 equal to max_tx_data. Every other field is Unsupported. |
| ConnectionAccess.GetConnection | quiche/src/plugin.rs:50-58 | Succeeds exactly when the field is MaxTxData and serializing U64(max_tx_data) succeeds, and then returns those bytes. It is Unsupported exactly for the other fields, and SerializeError exactly when serializing the value fails, so it is never BadType. |
| ConnectionAccess.SetConnection | quiche/src/plugin.rs:60-71 | A failed call leaves the connection unchanged. SerializeError happens exactly when the buffer does not deserialize. BadType happens exactly for MaxTxData with a non-u64 value, and Unsupported exactly for the other fields. On success the field was MaxTxData and the new max_tx_data is the deserialized u64. |
| ConnectionAccess.GetAfterSet | quiche/src/plugin.rs:53-70 | Setting MaxTxData from a buffer holding U64(v) succeeds, reading MaxTxData afterwards gives U64(v), and get_connection then returns the serialized U64(v) whenever the serializer accepts it. |
| ConnectionAccess.CopyMaxTxData | quiche/src/plugin.rs:50-71 | With a round-tripping serializer, getting MaxTxData from one connection and setting the bytes on another copies max_tx_data and changes nothing else. |

## Findings

| source | as written | input that shows it | evidently intended | confidence | as-written member | corrected member |
|---|---|---|---|---|---|---|
| quiche/src/plugin.rs:241-245 | `StreamsBlockedUni` is encoded with `unidirectional: false` | `StreamsBlockedUni { limit: 7 }` encodes to a bidirectional STREAMS_BLOCKED and decodes as `StreamsBlockedBidi { limit: 7 }` | `unidirectional: true`, as the `MaxStreamsUni` arm and the decoder at lines 381-390 do | high; not executed | FrameCodec.StreamsBlockedUniDecodesAsBidi | FrameCodec.EncodeFrameCorrected |

## Left out

- Recovery accessors `get_recovery`/`set_recovery` (lines 40-48): both are `todo!()` stubs with no behaviour.
- `set_pluginizable_connection`/`get_pluginizable_connection` (lines 74-90): raw-pointer and lifetime plumbing into the plugin runtime.
- `From<i64> for crate::Error` (lines 504-509): a `println!` followed by `todo!()`.
- bincode: `serialize_into` and `deserialize_from` are foreign code. They are function parameters that may fail, and their wire format is not modelled.
- Payloads: the payload-carrying frames (Crypto, CryptoHeader, NewToken, Stream, StreamHeader, NewConnectionId, ConnectionClose, ApplicationClose, Datagram, DatagramHeader), PATH_CHALLENGE/PATH_RESPONSE encoding and both ACK arms are only `Unsupported` outcomes. Byte-handle semantics are not modelled.
- The ACK frame's `ack_delay` and ECN counts: the frame-level ACK arm never completes, so only the range encoding is modelled.
- The destination connection ID: it is the placeholder handle the code writes, with no meaning attached. The header's dcid, scid, token and version list are not read by the encoder and are not modelled.
- The `PluginHandler` argument: it is unused by every function.
- Integer width: `usize` is taken to be 64 bits wide. A 32-bit target, where `p.length as usize` would truncate, is not modelled.
- Panics: an overflow that a release build would wrap instead of trapping is modelled as the checked build's error, not as wrap-around.
- AckRanges.EncodeAckRanges: when the list is empty, the model returns NoRanges. It does not tell apart the underflow at line 108 from the `unwrap` panic at line 111.
- PluginVal variants: plugin.rs produces only `U64` (line 54) and `QUIC` values (lines 318, 474, 494, 524). It reads whatever `deserialize_from` returns (line 64). The `Bool`, `I32`, `I64`, `U32`, `Usize` and `Bytes` constructors appear nowhere in the file. They stand for the non-u64 values that `set_connection` rejects with `BadType`. Durations, instants, addresses and floats are absent.
- ConnectionField: only MaxTxData has behaviour in plugin.rs. The other constructors stand for the rest of the plugin runtime's field enumeration, and every one of them is Unsupported.
- Plugin frame variants that `try_from_with_ph` does not name (its final catch-all arm) are one `Other` constructor, which decodes to Unsupported.

=== FILE: ack_ranges.dfy ===
/** The re-encoding of quiche's acknowledged-packet ranges into the fields of an ACK frame
    (section 19.3 of RFC 9000), and the reconstruction that section 19.3.1 prescribes for the
    reverse direction. */
module AckRanges {
  import opened Wrappers
  import opened Integers
  import opened Quiche
  import PV = PluginValues

  /** `NoRanges`: the range list was empty (`len() - 1` underflows, `next_back().unwrap()`
      panics). `Underflow`: a `u64` subtraction of the encoder went below zero (a panic in a
      checked build). `MalformedAckRanges`: the fields cannot be turned back into ranges. */
  datatype AckError = NoRanges | Underflow | MalformedAckRanges

  /** The ACK frame fields that describe the acknowledged packets. */
  datatype AckSummary = AckSummary(largestAcknowledged: u64, firstAckRange: u64,
                                   ackRangeCount: u64, ackRanges: seq<PV.AckRange>)

  /** Rust's `a - b` on `u64` when overflow is checked. */
  function CheckedSub(a: u64, b: u64): (r: Result<u64, AckError>)
    ensures r.Ok? <==> b <= a
    ensures r.Ok? ==> r.value + b == a
    ensures r.Err? ==> r.error == Underflow
  {
    if b <= a then Ok(a - b) else Err(Underflow)
  }

  predicate NonEmpty(r: Range) {
    r.start < r.end
  }

  /** At least one packet number is missing between range `j` and range `j + 1`. */
  predicate Separated(ranges: seq<Range>, j: int)
    requires 0 <= j < |ranges| - 1
  {
    ranges[j].end < ranges[j + 1].start
  }

  /** The shape of a `RangeSet`: ascending, non-empty, non-overlapping, non-adjacent. */
  predicate WellFormed(ranges: seq<Range>) {
    && (forall j | 0 <= j < |ranges| :: NonEmpty(ranges[j]))
    && (forall j | 0 <= j < |ranges| - 1 :: Separated(ranges, j))
  }

  /** Every range of `lower` ends at least one packet number below `bound`. */
  predicate Below(lower: seq<Range>, bound: int) {
    |lower| == 0 || lower[|lower| - 1].end < bound
  }

  /** Packet number `pn` lies in one of the ranges. */
  predicate Acknowledges(ranges: seq<Range>, pn: int) {
    exists j :: 0 <= j < |ranges| && ranges[j].start <= pn < ranges[j].end
  }

  /** Read by the rules of section 19.3.1 of RFC 9000, pair `p` that follows a range whose
      smallest packet is `prevSmallest` designates exactly range `r`. */
  predicate Describes(p: PV.AckRange, r: Range, prevSmallest: int) {
    && r.end - 1 == prevSmallest - p.gap - 2
    && r.start == (r.end - 1) - p.ackRangeLength
  }

  /** The smallest packet of the range above the `k`-th range of `lower` counted from the top;
      the range above the topmost one of `lower` starts at `smallestAck`. */
  function PrevSmallest(lower: seq<Range>, smallestAck: int, k: int): int
    requires 0 <= k <= |lower|
  {
    if k == 0 then smallestAck else lower[|lower| - k].start
  }

  lemma WellFormedSnoc(init: seq<Range>, x: Range)
    ensures WellFormed(init + [x]) <==> WellFormed(init) && NonEmpty(x) && Below(init, x.start)
  {
    var s := init + [x];
    if WellFormed(s) {
      forall j | 0 <= j < |init| - 1
        ensures Separated(init, j)
      {
        assert Separated(s, j);
      }
      forall j | 0 <= j < |init|
        ensures NonEmpty(init[j])
      {
        assert s[j] == init[j];
      }
      assert WellFormed(init);
      assert NonEmpty(s[|init|]);
      if |init| > 0 {
        assert Separated(s, |init| - 1);
      }
    }
    if WellFormed(init) && NonEmpty(x) && Below(init, x.start) {
      forall j | 0 <= j < |s|
        ensures NonEmpty(s[j])
      {
        if j < |init| {
          assert s[j] == init[j];
        }
      }
      forall j | 0 <= j < |s| - 1
        ensures Separated(s, j)
      {
        if j < |init| - 1 {
          assert Separated(init, j);
          assert s[j] == init[j] && s[j + 1] == init[j + 1];
        } else {
          assert s[j] == init[|init| - 1] && s[j + 1] == x;
        }
      }
      assert WellFormed(s);
    }
  }

  /** A well-formed list below `bound` holds at most `bound` ranges, so its length fits the
      `u64` of `ack_range_count`. */
  lemma {:induction false} LowerCountBound(lower: seq<Range>, bound: nat)
    requires WellFormed(lower) && Below(lower, bound)
    ensures |lower| <= bound
  {
    if |lower| > 0 {
      var init := lower[..|lower| - 1];
      var last := lower[|lower| - 1];
      assert lower == init + [last];
      assert NonEmpty(last);
      WellFormedSnoc(init, last);
      LowerCountBound(init, last.start);
      assert |init| <= last.start < last.end < bound;
    }
  }

  /** The loop of the encoder: consumes `lower` from its highest range downwards, one
      (gap, ack_range_length) pair per range; `smallestAck` is the smallest packet of the
      range consumed before. */
  function EncodeLower(smallestAck: u64, lower: seq<Range>): (r: Result<seq<PV.AckRange>, AckError>)
    ensures r.Err? ==> r.error == Underflow
    ensures r.Ok? <==> WellFormed(lower) && Below(lower, smallestAck)
    ensures r.Ok? ==> |r.value| == |lower|
    ensures r.Ok? ==> forall k | 0 <= k < |lower| ::
                        Describes(r.value[k], lower[|lower| - 1 - k], PrevSmallest(lower, smallestAck, k))
    decreases |lower|
  {
    if |lower| == 0 then Ok([])
    else
      var r := lower[|lower| - 1];
      var init := lower[..|lower| - 1];
      assert lower == init + [r];
      WellFormedSnoc(init, r);
      var distance :- CheckedSub(smallestAck, r.end);
      var gap :- CheckedSub(distance, 1);
      var largest :- CheckedSub(r.end, 1);
      var ackRangeLength :- CheckedSub(largest, r.start);
      var rest :- EncodeLower(r.start, init);
      Ok([PV.AckRange(gap, ackRangeLength)] + rest)
  }

  /** The ACK-range part of quiche's frame encoder. */
  function EncodeAckRanges(ranges: seq<Range>): (r: Result<AckSummary, AckError>)
    ensures r == Err(NoRanges) <==> |ranges| == 0
    ensures r.Ok? <==> |ranges| > 0 && WellFormed(ranges)
    ensures r.Err? ==> r.error == NoRanges || r.error == Underflow
    ensures r.Ok? ==>
              && r.value.largestAcknowledged == ranges[|ranges| - 1].end - 1
              && r.value.firstAckRange == r.value.largestAcknowledged - ranges[|ranges| - 1].start
              && r.value.ackRangeCount == |ranges| - 1
              && |r.value.ackRanges| == |ranges| - 1
    ensures r.Ok? ==> forall k | 0 <= k < |ranges| - 1 ::
                        Describes(r.value.ackRanges[k], ranges[|ranges| - 2 - k], ranges[|ranges| - 1 - k].start)
  {
    if |ranges| == 0 then Err(NoRanges)
    else
      var top := ranges[|ranges| - 1];
      var lower := ranges[..|ranges| - 1];
      assert ranges == lower + [top];
      WellFormedSnoc(lower, top);
      var largestAcknowledged :- CheckedSub(top.end, 1);
      var firstAckRange :- CheckedSub(largestAcknowledged, top.start);
      var pairs :- EncodeLower(top.start, lower);
      LowerCountBound(lower, top.start);
      assert forall k | 0 <= k < |lower| :: PrevSmallest(lower, top.start, k) == ranges[|ranges| - 1 - k].start;
      Ok(AckSummary(largestAcknowledged, firstAckRange, |lower|, pairs))
  }

  /** `prefix` followed by the pairs of `rest`, or the failure of `rest`. */
  function Prepend(prefix: seq<PV.AckRange>, rest: Result<seq<PV.AckRange>, AckError>)
    : Result<seq<PV.AckRange>, AckError>
  {
    match rest
    case Ok(pairs) => Ok(prefix + pairs)
    case Err(e) => Err(e)
  }

  lemma PrependAppend(a: seq<PV.AckRange>, b: seq<PV.AckRange>, rest: Result<seq<PV.AckRange>, AckError>)
    ensures Prepend(a, Prepend(b, rest)) == Prepend(a + b, rest)
  {
    if rest.Ok? {
      assert a + (b + rest.value) == (a + b) + rest.value;
    }
  }

  /** One turn of the encoder loop: the pair for the highest range of `lower`, in front of the
      pairs of the ranges below it. */
  lemma EncodeLowerStep(smallestAck: u64, lower: seq<Range>)
    requires |lower| > 0
    ensures var r := lower[|lower| - 1];
            if smallestAck < r.end + 1 || r.end < 1 + r.start
            then EncodeLower(smallestAck, lower) == Err(Underflow)
            else EncodeLower(smallestAck, lower)
                 == Prepend([PV.AckRange(smallestAck - r.end - 1, r.end - 1 - r.start)],
                            EncodeLower(r.start, lower[..|lower| - 1]))
  {
  }

  /** The encoder, once the top range is known to be non-empty, is the loop over the others. */
  lemma EncodeAckRangesStep(ranges: seq<Range>)
    requires |ranges| > 0 && NonEmpty(ranges[|ranges| - 1])
    ensures var lowerPairs := EncodeLower(ranges[|ranges| - 1].start, ranges[..|ranges| - 1]);
            && (lowerPairs.Err? ==> EncodeAckRanges(ranges) == Err(lowerPairs.error))
            && (lowerPairs.Ok? ==> EncodeAckRanges(ranges).Ok?
                                   && EncodeAckRanges(ranges).value.ackRanges == lowerPairs.value)
  {
  }

  /** The encoder as quiche writes it: a `while let` loop over the ranges from the top down,
      carrying the smallest packet of the range consumed last. */
  method EncodeAckRangesLoop(ranges: seq<Range>) returns (r: Result<AckSummary, AckError>)
    ensures r == EncodeAckRanges(ranges)
  {
    if |ranges| == 0 {
      return Err(NoRanges);
    }
    var n := |ranges|;
    var top := ranges[n - 1];
    if top.end < 1 || top.end - 1 < top.start {
      return Err(Underflow);
    }
    var largestAcknowledged := top.end - 1;
    var firstAckRange := largestAcknowledged - top.start;
    ghost var lower := ranges[..n - 1];
    EncodeAckRangesStep(ranges);
    var ackRanges: seq<PV.AckRange> := [];
    var smallestAck := top.start;
    var i := n - 1;
    assert Prepend([], EncodeLower(top.start, lower)) == EncodeLower(top.start, lower) by {
      var e := EncodeLower(top.start, lower);
      if e.Ok? {
        assert [] + e.value == e.value;
      }
    }
    while i > 0
      invariant 0 <= i <= n - 1
      invariant smallestAck == ranges[i].start
      invariant EncodeLower(top.start, lower) == Prepend(ackRanges, EncodeLower(smallestAck, ranges[..i]))
    {
      var below := ranges[i - 1];
      EncodeLowerStep(smallestAck, ranges[..i]);
      assert ranges[..i][..i - 1] == ranges[..i - 1];
      if smallestAck < below.end + 1 || below.end < 1 + below.start {
        return Err(Underflow);
      }
      var pair := PV.AckRange(smallestAck - below.end - 1, below.end - 1 - below.start);
      PrependAppend(ackRanges, [pair], EncodeLower(below.start, ranges[..i - 1]));
      ackRanges := ackRanges + [pair];
      smallestAck := below.start;
      i := i - 1;
    }
    assert EncodeLower(smallestAck, ranges[..0]) == Ok([]);
    assert ackRanges + [] == ackRanges;
    return Ok(AckSummary(largestAcknowledged, firstAckRange, n - 1, ackRanges));
  }

  /** Section 19.3.1 of RFC 9000, from the second range downwards: each pair yields the range
      below the previous one, which starts at `smallest`. The result is ascending. */
  function DecodeLower(smallest: u64, pairs: seq<PV.AckRange>): (r: Result<seq<Range>, AckError>)
    ensures r.Err? ==> r.error == MalformedAckRanges
    ensures r.Ok? ==> |r.value| == |pairs|
    decreases |pairs|
  {
    if |pairs| == 0 then Ok([])
    else
      var p := pairs[0];
      if smallest < p.gap + 2 || smallest - p.gap - 2 < p.ackRangeLength then Err(MalformedAckRanges)
      else
        var largest := smallest - p.gap - 2;
        var start := largest - p.ackRangeLength;
        var rest :- DecodeLower(start, pairs[1..]);
        Ok(rest + [Range(start, largest + 1)])
  }

  /** Rebuilds quiche's ascending range list from the ACK frame fields. */
  function DecodeAckRanges(a: AckSummary): (r: Result<seq<Range>, AckError>)
    ensures r.Err? ==> r.error == MalformedAckRanges
    ensures r.Ok? ==> |r.value| == a.ackRangeCount + 1
    ensures r.Ok? ==> && r.value[|r.value| - 1].start == a.largestAcknowledged - a.firstAckRange
                      && r.value[|r.value| - 1].end == a.largestAcknowledged + 1
  {
    if a.ackRangeCount != |a.ackRanges| || a.largestAcknowledged < a.firstAckRange
       || a.largestAcknowledged == U64_LIMIT - 1
    then Err(MalformedAckRanges)
    else
      var start := a.largestAcknowledged - a.firstAckRange;
      var lower :- DecodeLower(start, a.ackRanges);
      Ok(lower + [Range(start, a.largestAcknowledged + 1)])
  }

  lemma {:induction false} EncodeLowerThenDecode(smallestAck: u64, lower: seq<Range>)
    requires WellFormed(lower) && Below(lower, smallestAck)
    ensures EncodeLower(smallestAck, lower).Ok?
    ensures DecodeLower(smallestAck, EncodeLower(smallestAck, lower).value) == Ok(lower)
  {
    if |lower| > 0 {
      var r := lower[|lower| - 1];
      var init := lower[..|lower| - 1];
      assert lower == init + [r];
      WellFormedSnoc(init, r);
      EncodeLowerThenDecode(r.start, init);
      var pairs := EncodeLower(smallestAck, lower).value;
      assert pairs[1..] == EncodeLower(r.start, init).value;
    }
  }

  lemma {:induction false} DecodeLowerThenEncode(smallest: u64, pairs: seq<PV.AckRange>)
    requires DecodeLower(smallest, pairs).Ok?
    ensures WellFormed(DecodeLower(smallest, pairs).value)
    ensures Below(DecodeLower(smallest, pairs).value, smallest)
    ensures EncodeLower(smallest, DecodeLower(smallest, pairs).value) == Ok(pairs)
  {
    if |pairs| > 0 {
      var p := pairs[0];
      var largest := smallest - p.gap - 2;
      var start := largest - p.ackRangeLength;
      DecodeLowerThenEncode(start, pairs[1..]);
      var rest := DecodeLower(start, pairs[1..]).value;
      var l := DecodeLower(smallest, pairs).value;
      assert l == rest + [Range(start, largest + 1)];
      assert l[..|l| - 1] == rest;
      WellFormedSnoc(rest, Range(start, largest + 1));
      assert pairs == [p] + pairs[1..];
    }
  }

  /** Encoding a well-formed range list and reconstructing it by the rules of RFC 9000
      returns the original list. */
  lemma EncodeThenDecode(ranges: seq<Range>)
    requires |ranges| > 0 && WellFormed(ranges)
    ensures EncodeAckRanges(ranges).Ok?
    ensures DecodeAckRanges(EncodeAckRanges(ranges).value) == Ok(ranges)
  {
    var top := ranges[|ranges| - 1];
    var lower := ranges[..|ranges| - 1];
    assert ranges == lower + [top];
    WellFormedSnoc(lower, top);
    EncodeAckRangesStep(ranges);
    EncodeLowerThenDecode(top.start, lower);
    var a := EncodeAckRanges(ranges).value;
    assert a.ackRanges == EncodeLower(top.start, lower).value;
    assert a.largestAcknowledged - a.firstAckRange == top.start;
    assert DecodeLower(top.start, a.ackRanges) == Ok(lower);
  }

  /** Every summary that can be decoded is exactly the encoding of the ranges it decodes to,
      and those ranges are well formed. */
  lemma DecodeThenEncode(a: AckSummary)
    requires DecodeAckRanges(a).Ok?
    ensures |DecodeAckRanges(a).value| > 0 && WellFormed(DecodeAckRanges(a).value)
    ensures EncodeAckRanges(DecodeAckRanges(a).value) == Ok(a)
  {
    var start := a.largestAcknowledged - a.firstAckRange;
    DecodeLowerThenEncode(start, a.ackRanges);
    var lower := DecodeLower(start, a.ackRanges).value;
    var ranges := DecodeAckRanges(a).value;
    assert ranges[..|ranges| - 1] == lower;
    WellFormedSnoc(lower, Range(start, a.largestAcknowledged + 1));
  }

  lemma {:induction false} EndsAscend(ranges: seq<Range>, i: int, j: int)
    requires WellFormed(ranges) && 0 <= i <= j < |ranges|
    ensures ranges[i].end <= ranges[j].end
    decreases j - i
  {
    if i < j {
      assert Separated(ranges, i);
      assert NonEmpty(ranges[i + 1]);
      EndsAscend(ranges, i + 1, j);
    }
  }

  /** `largest_acknowledged` is the greatest acknowledged packet number, and the
      `first_ack_range` packets below it are all acknowledged. */
  lemma LargestAcknowledgedIsMaximum(ranges: seq<Range>)
    requires |ranges| > 0 && WellFormed(ranges)
    ensures EncodeAckRanges(ranges).Ok?
    ensures Acknowledges(ranges, EncodeAckRanges(ranges).value.largestAcknowledged)
    ensures forall pn | Acknowledges(ranges, pn) :: pn <= EncodeAckRanges(ranges).value.largestAcknowledged
    ensures forall pn | EncodeAckRanges(ranges).value.largestAcknowledged - EncodeAckRanges(ranges).value.firstAckRange <= pn
                        <= EncodeAckRanges(ranges).value.largestAcknowledged
              :: Acknowledges(ranges, pn)
  {
    var n := |ranges|;
    assert NonEmpty(ranges[n - 1]);
    forall pn | Acknowledges(ranges, pn)
      ensures pn <= ranges[n - 1].end - 1
    {
      var j :| 0 <= j < n && ranges[j].start <= pn < ranges[j].end;
      EndsAscend(ranges, j, n - 1);
    }
  }

  /** Packets 5 to 7 and 10 to 12: largest 12, first range 2, one pair (gap 1, length 2). */
  lemma AckExample()
    ensures EncodeAckRanges([Range(5, 8), Range(10, 13)])
            == Ok(AckSummary(12, 2, 1, [PV.AckRange(1, 2)]))
    ensures DecodeAckRanges(AckSummary(12, 2, 1, [PV.AckRange(1, 2)]))
            == Ok([Range(5, 8), Range(10, 13)])
  {
    assert [Range(5, 8)][..0] == [];
    assert EncodeLower(5, []) == Ok([]);
    assert CheckedSub(10, 8) == Ok(2);
    assert CheckedSub(2, 1) == Ok(1);
    assert CheckedSub(8, 1) == Ok(7);
    assert CheckedSub(7, 5) == Ok(2);
    assert [PV.AckRange(1, 2)] + [] == [PV.AckRange(1, 2)];
    assert EncodeLower(10, [Range(5, 8)]) == Ok([PV.AckRange(1, 2)]);
    assert [PV.AckRange(1, 2)][1..] == [];
    assert DecodeLower(5, []) == Ok([]);
    assert [] + [Range(5, 8)] == [Range(5, 8)];
    assert DecodeLower(10, [PV.AckRange(1, 2)]) == Ok([Range(5, 8)]);
    assert [Range(5, 8)] + [Range(10, 13)] == [Range(5, 8), Range(10, 13)];
  }
}

=== FILE: big_endian.dfy ===
/** Big-endian byte arrays, as Rust's `u64::to_be_bytes` produces them. */
module BigEndian {
  import opened Integers

  /** A `[u8; 8]` array. */
  type Bytes8 = s: seq<u8> | |s| == 8 witness [0, 0, 0, 0, 0, 0, 0, 0]

  function Pow256(n: nat): (r: nat)
    ensures r > 0
  {
    if n == 0 then 1 else 256 * Pow256(n - 1)
  }

  /** The number whose big-endian digits in base 256 are `s`: the first byte is the most
      significant one. */
  function FromBe(s: seq<u8>): (r: nat)
    ensures r < Pow256(|s|)
  {
    if |s| == 0 then 0 else FromBe(s[..|s| - 1]) * 256 + s[|s| - 1]
  }

  /** The `n` low-order base-256 digits of `x`, most significant first. */
  function ToBe(x: nat, n: nat): (r: seq<u8>)
    ensures |r| == n
  {
    if n == 0 then [] else ToBe(x / 256, n - 1) + [x % 256]
  }

  lemma {:induction false} FromBeOfToBe(x: nat, n: nat)
    requires x < Pow256(n)
    ensures FromBe(ToBe(x, n)) == x
  {
    if n > 0 {
      var s := ToBe(x, n);
      assert s[..n - 1] == ToBe(x / 256, n - 1);
      FromBeOfToBe(x / 256, n - 1);
    }
  }

  lemma {:induction false} ToBeOfFromBe(s: seq<u8>)
    ensures ToBe(FromBe(s), |s|) == s
  {
    if |s| > 0 {
      var init := s[..|s| - 1];
      ToBeOfFromBe(init);
      assert FromBe(s) / 256 == FromBe(init);
      assert FromBe(s) % 256 == s[|s| - 1];
      assert s == init + [s[|s| - 1]];
    }
  }

  /** `x.to_be_bytes()`. */
  function U64ToBeBytes(x: u64): (r: Bytes8)
    ensures FromBe(r) == x
  {
    assert Pow256(8) == U64_LIMIT;
    FromBeOfToBe(x, 8);
    ToBe(x, 8)
  }

  /** `u64::from_be_bytes(b)`. */
  function U64FromBeBytes(b: Bytes8): (r: u64)
    ensures ToBe(r, 8) == b
  {
    assert Pow256(8) == U64_LIMIT;
    ToBeOfFromBe(b);
    FromBe(b)
  }
}

=== FILE: connection_access.dfy ===
/** The field-indexed connection accessor a plugin uses to read and write connection state.
    Values cross the trust boundary as bytes; the serializer and the deserializer are given
    as parameters and may fail. */
module ConnectionAccess {
  import opened Wrappers
  import opened Integers
  import Q = Quiche
  import PV = PluginValues

  datatype PacketNumberSpaceField =
    | ReceivedPacketNeedAck | AckElicited | NextPacketNumber | HasSendKeys | ShouldSend
    | LargestRxPacket

  /** The connection-level field namespace. */
  datatype ConnectionField =
    | MaxTxData
    | IsEstablished
    | IsServer
    | PacketNumberSpace(space: PV.KPacketNumberSpace, field: PacketNumberSpaceField)

  /** `SerializeError`: a buffer could not be written or read. `BadType`: the value has the
      wrong type for the field. `Unsupported`: the field has no accessor yet. */
  datatype AccessError = SerializeError | BadType | Unsupported

  /** The plugin value a field holds, before it is serialized. */
  function FieldValue(c: Q.Connection, field: ConnectionField): (r: Result<PV.PluginVal, AccessError>)
    ensures r.Ok? <==> field.MaxTxData?
    ensures r.Ok? ==> PV.AsU64(r.value) == Some(c.maxTxData)
    ensures r.Err? ==> r.error == Unsupported
  {
    match field
    case MaxTxData => Ok(PV.PluginVal.U64(c.maxTxData))
    case _ => Err(Unsupported)
  }

  /** `get_connection`: the serialized value of `field`. */
  function GetConnection(c: Q.Connection, field: ConnectionField,
                         serialize: PV.PluginVal -> Option<seq<u8>>): (r: Result<seq<u8>, AccessError>)
    ensures r.Ok? <==> field.MaxTxData? && serialize(PV.PluginVal.U64(c.maxTxData)).Some?
    ensures r.Ok? ==> serialize(PV.PluginVal.U64(c.maxTxData)) == Some(r.value)
    ensures r == Err(Unsupported) <==> !field.MaxTxData?
    ensures r == Err(SerializeError) <==> field.MaxTxData? && serialize(PV.PluginVal.U64(c.maxTxData)).None?
  {
    var pv :- FieldValue(c, field);
    match serialize(pv)
    case Some(bytes) => Ok(bytes)
    case None => Err(SerializeError)
  }

  /** `set_connection`: the connection after the call and the call's status. A failed call
      leaves the connection as it was. */
  function SetConnection(c: Q.Connection, field: ConnectionField, buf: seq<u8>,
                         deserialize: seq<u8> -> Option<PV.PluginVal>)
    : (r: (Q.Connection, Result<(), AccessError>))
    ensures r.1.Err? ==> r.0 == c
    ensures r.1 == Err(SerializeError) <==> deserialize(buf).None?
    ensures r.1 == Err(BadType) <==> deserialize(buf).Some? && field.MaxTxData? && !deserialize(buf).value.U64?
    ensures r.1 == Err(Unsupported) <==> deserialize(buf).Some? && !field.MaxTxData?
    ensures r.1.Ok? ==> field.MaxTxData? && deserialize(buf) == Some(PV.PluginVal.U64(r.0.maxTxData))
  {
    match deserialize(buf)
    case None => (c, Err(SerializeError))
    case Some(pv) =>
      match field
      case MaxTxData =>
        (match PV.AsU64(pv)
         case Some(v) => (c.(maxTxData := v), Ok(()))
         case None => (c, Err(BadType)))
      case _ => (c, Err(Unsupported))
  }

  /** Setting MAX_TX_DATA from a buffer that holds a `u64` succeeds, and a later read of the
      field returns that `u64`, serialized whenever the serializer accepts it. */
  lemma GetAfterSet(c: Q.Connection, buf: seq<u8>, v: u64,
                    serialize: PV.PluginVal -> Option<seq<u8>>,
                    deserialize: seq<u8> -> Option<PV.PluginVal>)
    requires deserialize(buf) == Some(PV.PluginVal.U64(v))
    ensures SetConnection(c, MaxTxData, buf, deserialize).1 == Ok(())
    ensures FieldValue(SetConnection(c, MaxTxData, buf, deserialize).0, MaxTxData) == Ok(PV.PluginVal.U64(v))
    ensures serialize(PV.PluginVal.U64(v)).Some? ==>
              GetConnection(SetConnection(c, MaxTxData, buf, deserialize).0, MaxTxData, serialize)
              == Ok(serialize(PV.PluginVal.U64(v)).value)
  {
  }

  /** With a serializer and deserializer that round-trip, reading MAX_TX_DATA from one
      connection and writing the bytes into another copies the value. */
  lemma CopyMaxTxData(a: Q.Connection, b: Q.Connection,
                      serialize: PV.PluginVal -> Option<seq<u8>>,
                      deserialize: seq<u8> -> Option<PV.PluginVal>)
    requires forall v :: serialize(v).Some? ==> deserialize(serialize(v).value) == Some(v)
    requires GetConnection(a, MaxTxData, serialize).Ok?
    ensures SetConnection(b, MaxTxData, GetConnection(a, MaxTxData, serialize).value, deserialize)
            == (b.(maxTxData := a.maxTxData), Ok(()))
  {
    assert serialize(PV.PluginVal.U64(a.maxTxData)).Some?;
  }
}

=== FILE: frame_codec.dfy ===
/** Translation of quiche frames into plugin frame values and back. Every arm that quiche
    leaves as `todo!()` is an explicit `Unsupported` result, so both directions are total. */
module FrameCodec {
  import opened Wrappers
  import opened Integers
  import opened BigEndian
  import Q = Quiche
  import PV = PluginValues
  import AR = AckRanges

  /** `BadFrame`: the value is not a frame. `Unsupported`: the arm is not written yet (names
      the missing piece). `AckRangesPanic`: the ACK range encoding failed before the arm's
      `todo!()` was reached. */
  datatype CodecError =
    | BadFrame
    | Unsupported(what: string)
    | AckRangesPanic(cause: AR.AckError)

  function FrameVal(f: PV.Frame): PV.PluginVal {
    PV.PluginVal.QUIC(PV.QVal.Frame(f))
  }

  /** The quiche frames whose encoder arm completes. */
  predicate EncodeSupported(f: Q.Frame) {
    || f.Padding? || f.Ping? || f.ResetStream? || f.StopSending? || f.MaxData?
    || f.MaxStreamData? || f.MaxStreamsBidi? || f.MaxStreamsUni? || f.DataBlocked?
    || f.StreamDataBlocked? || f.StreamsBlockedBidi? || f.StreamsBlockedUni?
    || f.RetireConnectionId? || f.HandshakeDone? || f.Extension?
  }

  /** The plugin frames whose decoder arm completes. */
  predicate DecodeSupported(f: PV.Frame) {
    || f.Padding? || f.Ping? || f.ResetStream? || f.StopSending? || f.MaxData?
    || f.MaxStreamData? || f.MaxStreams? || f.DataBlocked? || f.StreamDataBlocked?
    || f.StreamsBlocked? || f.RetireConnectionId? || f.PathChallenge? || f.PathResponse?
    || f.HandshakeDone? || f.Extension?
  }

  /** `PluginVal::from_with_ph(frame)`, as written. */
  function EncodeFrame(f: Q.Frame): (r: Result<PV.PluginVal, CodecError>)
    ensures r.Ok? <==> EncodeSupported(f)
    ensures r.Ok? ==> PV.IsFrameVal(r.value)
    ensures r.Err? ==> !r.error.BadFrame?
    ensures (r.Err? && r.error.AckRangesPanic?) <==> f.ACK? && AR.EncodeAckRanges(f.ranges).Err?
    ensures r.Err? && r.error.AckRangesPanic? ==> r.error.cause == AR.EncodeAckRanges(f.ranges).error
  {
    match f
    case Padding(len) => Ok(FrameVal(PV.Padding(UsizeAsU64(len))))
    case Ping => Ok(FrameVal(PV.Ping))
    case ACK(_, ranges, _) =>
      (match AR.EncodeAckRanges(ranges)
       case Err(cause) => Err(AckRangesPanic(cause))
       case Ok(_) => Err(Unsupported("ack_ranges")))
    case ResetStream(streamId, errorCode, finalSize) =>
      Ok(FrameVal(PV.ResetStream(streamId, errorCode, finalSize)))
    case StopSending(streamId, errorCode) => Ok(FrameVal(PV.StopSending(streamId, errorCode)))
    case Crypto(_, _) => Err(Unsupported("crypto_data"))
    case CryptoHeader(_, _) => Err(Unsupported("crypto_data"))
    case NewToken(_) => Err(Unsupported("new token"))
    case Stream(_, _, _, _) => Err(Unsupported("stream_data"))
    case StreamHeader(_, _, _, _) => Err(Unsupported("stream_data"))
    case MaxData(max) => Ok(FrameVal(PV.MaxData(max)))
    case MaxStreamData(streamId, max) => Ok(FrameVal(PV.MaxStreamData(streamId, max)))
    case MaxStreamsBidi(max) => Ok(FrameVal(PV.MaxStreams(false, max)))
    case MaxStreamsUni(max) => Ok(FrameVal(PV.MaxStreams(true, max)))
    case DataBlocked(limit) => Ok(FrameVal(PV.DataBlocked(limit)))
    case StreamDataBlocked(streamId, limit) => Ok(FrameVal(PV.StreamDataBlocked(streamId, limit)))
    case StreamsBlockedBidi(limit) => Ok(FrameVal(PV.StreamsBlocked(false, limit)))
    case StreamsBlockedUni(limit) => Ok(FrameVal(PV.StreamsBlocked(false, limit)))
    case NewConnectionId(_, _, _, _) => Err(Unsupported("connection_id"))
    case RetireConnectionId(seqNum) => Ok(FrameVal(PV.RetireConnectionId(seqNum)))
    case PathChallenge(_) => Err(Unsupported("path challenge data"))
    case PathResponse(_) => Err(Unsupported("path response data"))
    case ConnectionClose(_, _, _) => Err(Unsupported("reason_phrase"))
    case ApplicationClose(_, _) => Err(Unsupported("reason_phrase"))
    case HandshakeDone => Ok(FrameVal(PV.HandshakeDone))
    case Datagram(_) => Err(Unsupported("datagram tag"))
    case DatagramHeader(_) => Err(Unsupported("datagram tag"))
    case Extension(ty, tag) => Ok(FrameVal(PV.Extension(ty, tag)))
  }

  /** The encoder with STREAMS_BLOCKED (unidirectional) flagged as unidirectional. */
  function EncodeFrameCorrected(f: Q.Frame): (r: Result<PV.PluginVal, CodecError>)
    ensures r.Ok? <==> EncodeSupported(f)
    ensures r.Ok? ==> PV.IsFrameVal(r.value)
    ensures !f.StreamsBlockedUni? ==> r == EncodeFrame(f)
  {
    match f
    case StreamsBlockedUni(limit) => Ok(FrameVal(PV.StreamsBlocked(true, limit)))
    case _ => EncodeFrame(f)
  }

  /** `frame::Frame::try_from_with_ph(value)`. */
  function DecodeFrame(v: PV.PluginVal): (r: Result<Q.Frame, CodecError>)
    ensures r == Err(BadFrame) <==> !PV.IsFrameVal(v)
    ensures r.Ok? <==> PV.IsFrameVal(v) && DecodeSupported(v.q.frame)
    ensures r.Err? ==> r.error.BadFrame? || r.error.Unsupported?
  {
    if !PV.IsFrameVal(v) then Err(BadFrame)
    else
      match v.q.frame
      case Padding(length) => Ok(Q.Padding(U64AsUsize(length)))
      case Ping => Ok(Q.Ping)
      case ACK(_, _, _, _, _, _) => Err(Unsupported("ack"))
      case ResetStream(streamId, errorCode, finalSize) =>
        Ok(Q.ResetStream(streamId, errorCode, finalSize))
      case StopSending(streamId, errorCode) => Ok(Q.StopSending(streamId, errorCode))
      case Crypto(_, _, _) => Err(Unsupported("crypto"))
      case NewToken(_) => Err(Unsupported("new token"))
      case Stream(_, _, _, _, _) => Err(Unsupported("stream"))
      case MaxData(maximumData) => Ok(Q.MaxData(maximumData))
      case MaxStreamData(streamId, maximumStreamData) =>
        Ok(Q.MaxStreamData(streamId, maximumStreamData))
      case MaxStreams(unidirectional, maximumStreams) =>
        if unidirectional then Ok(Q.MaxStreamsUni(maximumStreams))
        else Ok(Q.MaxStreamsBidi(maximumStreams))
      case DataBlocked(maximumData) => Ok(Q.DataBlocked(maximumData))
      case StreamDataBlocked(streamId, maximumStreamData) =>
        Ok(Q.StreamDataBlocked(streamId, maximumStreamData))
      case StreamsBlocked(unidirectional, maximumStreams) =>
        if unidirectional then Ok(Q.StreamsBlockedUni(maximumStreams))
        else Ok(Q.StreamsBlockedBidi(maximumStreams))
      case NewConnectionId(_, _, _, _, _) => Err(Unsupported("new cid"))
      case RetireConnectionId(sequenceNumber) => Ok(Q.RetireConnectionId(sequenceNumber))
      case PathChallenge(data) => Ok(Q.PathChallenge(U64ToBeBytes(data)))
      case PathResponse(data) => Ok(Q.PathResponse(U64ToBeBytes(data)))
      case ConnectionClose(_, _, _, _) => Err(Unsupported("connection close"))
      case HandshakeDone => Ok(Q.HandshakeDone)
      case Extension(frameType, tag) => Ok(Q.Extension(frameType, tag))
      case Other(_) => Err(Unsupported("unknown frame"))
  }

  /** Every frame the encoder accepts, except STREAMS_BLOCKED (unidirectional), decodes back
      to itself. */
  lemma EncodeThenDecode(f: Q.Frame)
    requires EncodeSupported(f) && !f.StreamsBlockedUni?
    ensures DecodeFrame(EncodeFrame(f).value) == Ok(f)
  {
  }

  /** As written, STREAMS_BLOCKED (unidirectional) comes back bidirectional. */
  lemma StreamsBlockedUniDecodesAsBidi(limit: u64)
    ensures DecodeFrame(EncodeFrame(Q.StreamsBlockedUni(limit)).value) == Ok(Q.StreamsBlockedBidi(limit))
    ensures DecodeFrame(EncodeFrame(Q.StreamsBlockedUni(limit)).value) != Ok(Q.StreamsBlockedUni(limit))
  {
  }

  /** With the corrected encoder every frame it accepts decodes back to itself. */
  lemma CorrectedEncodeThenDecode(f: Q.Frame)
    requires EncodeSupported(f)
    ensures DecodeFrame(EncodeFrameCorrected(f).value) == Ok(f)
  {
  }

  /** Every decodable plugin frame other than PATH_CHALLENGE and PATH_RESPONSE is re-encoded
      by the corrected encoder to exactly the value it came from. */
  lemma DecodeThenEncode(v: PV.PluginVal)
    requires DecodeFrame(v).Ok?
    requires !v.q.frame.PathChallenge? && !v.q.frame.PathResponse?
    ensures EncodeFrameCorrected(DecodeFrame(v).value) == Ok(v)
  {
  }

  /** PATH_CHALLENGE and PATH_RESPONSE data arrive as a `u64` and become the eight-byte
      big-endian array whose value is that `u64`; any eight-byte array survives the trip. */
  lemma PathDataBigEndian(data: u64, bytes: Bytes8)
    ensures DecodeFrame(FrameVal(PV.PathChallenge(data))).Ok?
    ensures U64FromBeBytes(DecodeFrame(FrameVal(PV.PathChallenge(data))).value.data) == data
    ensures DecodeFrame(FrameVal(PV.PathResponse(data))).Ok?
    ensures U64FromBeBytes(DecodeFrame(FrameVal(PV.PathResponse(data))).value.data) == data
    ensures DecodeFrame(FrameVal(PV.PathChallenge(U64FromBeBytes(bytes)))) == Ok(Q.PathChallenge(bytes))
    ensures DecodeFrame(FrameVal(PV.PathResponse(U64FromBeBytes(bytes)))) == Ok(Q.PathResponse(bytes))
  {
  }
}

=== FILE: header_codec.dfy ===
/** Engine-to-plugin translation of packet headers, packet-number epochs and packet types. */
module HeaderCodec {
  import opened Wrappers
  import opened Integers
  import Q = Quiche
  import PV = PluginValues

  /** The handle the encoder puts where the destination connection ID belongs. */
  const PLACEHOLDER_CID: PV.Bytes := PV.Bytes.Bytes(0, 0, 0)

  /** Initial, 0-RTT, Handshake and Retry packets carry a long header. */
  predicate IsLong(ty: Q.Type) {
    ty.Initial? || ty.Retry? || ty.Handshake? || ty.ZeroRTT?
  }

  /** `PluginVal::from_with_ph(header)`. */
  function EncodeHeader(h: Q.Header): (r: PV.PluginVal)
    ensures r.QUIC? && r.q.Header?
    ensures r.q.header.version.None? <==> h.ty.Short?
    ensures h.ty.VersionNegotiation? ==> r.q.header.version == Some(0)
    ensures IsLong(h.ty) ==> r.q.header.version == Some(h.version)
    ensures r.q.header.first == h.firstByte.UnwrapOr(0)
    ensures r.q.header.ext.Some?
    ensures r.q.header.ext.value.packetNumber == Some(h.pktNum)
    ensures r.q.header.ext.value.keyPhase == Some(h.keyPhase)
    ensures r.q.header.ext.value.packetNumberLen == Some(h.pktNumLen % U8_LIMIT)
    ensures h.pktNumLen < U8_LIMIT ==> r.q.header.ext.value.packetNumberLen == Some(h.pktNumLen)
    ensures r.q.header.ext.value.token.None?
    ensures r.q.header.destinationCid == PLACEHOLDER_CID
    ensures r.q.header.sourceCid.None? && r.q.header.supportedVersions.None?
  {
    var ext := PV.HeaderExt(Some(h.pktNum), Some(UsizeAsU8(h.pktNumLen)), None, Some(h.keyPhase));
    var first := h.firstByte.UnwrapOr(0);
    var hdr :=
      match h.ty
      case VersionNegotiation => PV.Header.Header(first, Some(0), PLACEHOLDER_CID, None, None, Some(ext))
      case Short => PV.Header.Header(first, None, PLACEHOLDER_CID, None, None, Some(ext))
      case _ => PV.Header.Header(first, Some(h.version), PLACEHOLDER_CID, None, None, Some(ext));
    PV.PluginVal.QUIC(PV.QVal.Header(hdr))
  }

  /** The long header types are told apart only through the first byte: two long headers that
      differ in nothing but their type encode to the same value. */
  lemma LongHeaderTypeOnlyInFirstByte(h: Q.Header, ty: Q.Type)
    requires IsLong(h.ty) && IsLong(ty)
    ensures EncodeHeader(h.(ty := ty)) == EncodeHeader(h)
  {
  }

  /** The packet number, the key phase and shortness can be read back from the encoded header;
      the packet-number length only modulo 256, and exactly when it fits a byte. */
  lemma HeaderKeepsPacketNumberFields(h1: Q.Header, h2: Q.Header)
    requires EncodeHeader(h1) == EncodeHeader(h2)
    ensures h1.pktNum == h2.pktNum && h1.keyPhase == h2.keyPhase
    ensures h1.ty.Short? <==> h2.ty.Short?
    ensures h1.pktNumLen % U8_LIMIT == h2.pktNumLen % U8_LIMIT
    ensures h1.pktNumLen < U8_LIMIT && h2.pktNumLen < U8_LIMIT ==> h1.pktNumLen == h2.pktNumLen
  {
    assert EncodeHeader(h1).q.header.ext == EncodeHeader(h2).q.header.ext;
  }

  /** `PluginVal::from_with_ph(epoch)`. */
  function EncodeEpoch(e: Q.Epoch): (r: PV.PluginVal)
    ensures r.QUIC? && r.q.PacketNumberSpace?
    ensures EpochOf(r.q.space) == e
  {
    var pns :=
      match e
      case Initial => PV.KPacketNumberSpace.Initial
      case Handshake => PV.KPacketNumberSpace.Handshake
      case Application => PV.KPacketNumberSpace.ApplicationData;
    PV.PluginVal.QUIC(PV.QVal.PacketNumberSpace(pns))
  }

  /** The epoch a packet-number space belongs to. */
  function EpochOf(s: PV.KPacketNumberSpace): Q.Epoch {
    match s
    case Initial => Q.Epoch.Initial
    case Handshake => Q.Epoch.Handshake
    case ApplicationData => Q.Epoch.Application
  }

  /** The epoch mapping is a bijection: injective, and every packet-number space is reached. */
  lemma EpochBijective(e1: Q.Epoch, e2: Q.Epoch, s: PV.KPacketNumberSpace)
    ensures EncodeEpoch(e1) == EncodeEpoch(e2) ==> e1 == e2
    ensures EncodeEpoch(EpochOf(s)) == PV.PluginVal.QUIC(PV.QVal.PacketNumberSpace(s))
  {
    if EncodeEpoch(e1) == EncodeEpoch(e2) {
      assert EpochOf(EncodeEpoch(e1).q.space) == EpochOf(EncodeEpoch(e2).q.space);
    }
  }

  /** `PluginVal::from_with_ph(packet_type)`. */
  function EncodePacketType(t: Q.Type): (r: PV.PluginVal)
    ensures r.QUIC? && r.q.PacketType?
    ensures TypeOf(r.q.packetType) == t
  {
    var pt :=
      match t
      case Initial => PV.PacketType.Initial
      case Retry => PV.PacketType.Retry
      case Handshake => PV.PacketType.Handshake
      case ZeroRTT => PV.PacketType.ZeroRTT
      case VersionNegotiation => PV.PacketType.VersionNegotiation
      case Short => PV.PacketType.Short;
    PV.PluginVal.QUIC(PV.QVal.PacketType(pt))
  }

  /** The quiche packet type a plugin packet type stands for. */
  function TypeOf(t: PV.PacketType): Q.Type {
    match t
    case Initial => Q.Type.Initial
    case Retry => Q.Type.Retry
    case Handshake => Q.Type.Handshake
    case ZeroRTT => Q.Type.ZeroRTT
    case VersionNegotiation => Q.Type.VersionNegotiation
    case Short => Q.Type.Short
  }

  /** The packet-type mapping is a bijection. */
  lemma PacketTypeBijective(t1: Q.Type, t2: Q.Type, t: PV.PacketType)
    ensures EncodePacketType(t1) == EncodePacketType(t2) ==> t1 == t2
    ensures EncodePacketType(TypeOf(t)) == PV.PluginVal.QUIC(PV.QVal.PacketType(t))
  {
    if EncodePacketType(t1) == EncodePacketType(t2) {
      assert TypeOf(EncodePacketType(t1).q.packetType) == TypeOf(EncodePacketType(t2).q.packetType);
    }
  }
}

=== FILE: integers.dfy ===
/** Fixed-width Rust integers as bounded subsets of `int`.
    The target is assumed to be 64-bit, so `usize` has the range of `u64`. */
module Integers {

  const U8_LIMIT: int := 0x100
  const U32_LIMIT: int := 0x1_0000_0000
  const U64_LIMIT: int := 0x1_0000_0000_0000_0000
  const USIZE_LIMIT: int := U64_LIMIT

  type u8 = x: int | 0 <= x < 0x100
  type u32 = x: int | 0 <= x < 0x1_0000_0000
  type u64 = x: int | 0 <= x < 0x1_0000_0000_0000_0000
  type usize = x: int | 0 <= x < 0x1_0000_0000_0000_0000
  type i32 = x: int | -0x8000_0000 <= x < 0x8000_0000
  type i64 = x: int | -0x8000_0000_0000_0000 <= x < 0x8000_0000_0000_0000

  /** `x as u64` for a `usize`: lossless on a 64-bit target. */
  function UsizeAsU64(x: usize): (r: u64)
    ensures r == x
  {
    x
  }

  /** `x as usize` for a `u64`: keeps the low bits that fit a `usize`, which on a 64-bit
      target are all of them. */
  function U64AsUsize(x: u64): (r: usize)
    ensures r == x
  {
    x % USIZE_LIMIT
  }

  /** `x as u8` for a `usize`: keeps the low eight bits. */
  function UsizeAsU8(x: usize): (r: u8)
    ensures r == x % U8_LIMIT
    ensures x < U8_LIMIT ==> r == x
  {
    x % U8_LIMIT
  }
}

=== FILE: plugin_values.dfy ===
/** The plugin-side value model: `PluginVal` and the `quic` leaf types it carries
    (frames, headers, packet-number spaces, packet types). */
module PluginValues {
  import opened Wrappers
  import opened Integers

  /** A bounded, non-owning handle on payload bytes held by the engine. */
  datatype Bytes = Bytes(tag: u64, maxReadLen: u64, maxWriteLen: u64)

  /** One (Gap, ACK Range Length) pair of section 19.3.1 of RFC 9000. */
  datatype AckRange = AckRange(gap: u64, ackRangeLength: u64)

  datatype EcnCount = EcnCount(ect0Count: u64, ect1Count: u64, ectceCount: u64)

  /** The plugin's view of a QUIC frame. `Other` stands for the variants of the plugin frame
      type that the translation does not list by name. */
  datatype Frame =
    | Padding(length: u64)
    | Ping
    | ACK(largestAcknowledged: u64, ackDelay: u64, ackRangeCount: u64, firstAckRange: u64,
          ackRanges: seq<AckRange>, ecnCounts: Option<EcnCount>)
    | ResetStream(streamId: u64, applicationProtocolErrorCode: u64, finalSize: u64)
    | StopSending(streamId: u64, applicationProtocolErrorCode: u64)
    | Crypto(offset: u64, length: u64, cryptoData: Bytes)
    | NewToken(token: Bytes)
    | Stream(streamId: u64, streamOffset: Option<u64>, streamLength: Option<u64>, fin: bool,
             streamData: Bytes)
    | MaxData(maximumData: u64)
    | MaxStreamData(streamId: u64, maximumStreamData: u64)
    | MaxStreams(unidirectional: bool, maximumStreams: u64)
    | DataBlocked(maximumData: u64)
    | StreamDataBlocked(streamId: u64, maximumStreamData: u64)
    | StreamsBlocked(unidirectional: bool, maximumStreams: u64)
    | NewConnectionId(sequenceNumber: u64, retirePriorTo: u64, cidLength: u8,
                      connectionId: Bytes, statelessResetToken: Bytes)
    | RetireConnectionId(sequenceNumber: u64)
    | PathChallenge(data: u64)
    | PathResponse(data: u64)
    | ConnectionClose(errorCode: u64, closeFrameType: Option<u64>, reasonPhraseLength: u64,
                      reasonPhrase: Bytes)
    | HandshakeDone
    | Extension(frameType: u64, tag: u64)
    | Other(typeCode: u64)

  datatype HeaderExt = HeaderExt(packetNumber: Option<u64>, packetNumberLen: Option<u8>,
                                 token: Option<Bytes>, keyPhase: Option<bool>)

  /** The plugin's view of a packet header. */
  datatype Header = Header(first: u8, version: Option<u32>, destinationCid: Bytes,
                           sourceCid: Option<Bytes>, supportedVersions: Option<seq<u32>>,
                           ext: Option<HeaderExt>)

  datatype KPacketNumberSpace = Initial | Handshake | ApplicationData

  datatype PacketType = Initial | Retry | Handshake | ZeroRTT | VersionNegotiation | Short

  /** `quic::QVal`: the protocol-specific leaves of a plugin value. */
  datatype QVal =
    | Frame(frame: Frame)
    | Header(header: Header)
    | PacketNumberSpace(space: KPacketNumberSpace)
    | PacketType(packetType: PacketType)

  /** The value type that crosses the trust boundary between engine and plugin. */
  datatype PluginVal =
    | Bool(b: bool)
    | I32(i32: i32)
    | I64(i64: i64)
    | U32(u32: u32)
    | U64(u64: u64)
    | Usize(usize: usize)
    | Bytes(bytes: Bytes)
    | QUIC(q: QVal)

  /** True of exactly the values shaped `PluginVal::QUIC(QVal::Frame(_))`. */
  predicate IsFrameVal(v: PluginVal) {
    v.QUIC? && v.q.Frame?
  }

  /** `PluginVal`'s conversion into `u64`: succeeds exactly on the `U64` variant. */
  function AsU64(v: PluginVal): (r: Option<u64>)
    ensures r.Some? <==> v.U64?
    ensures r.Some? ==> v == U64(r.value)
  {
    match v
    case U64(x) => Some(x)
    case _ => None
  }
}

=== FILE: quiche_types.dfy ===
/** The engine-side (quiche) values the translation layer reads: frames, packet headers,
    packet-number epochs and packet types. */
module Quiche {
  import opened Wrappers
  import opened Integers
  import opened BigEndian

  /** A half-open range `[start, end)` of packet numbers, an element of quiche's `RangeSet`. */
  datatype Range = Range(start: u64, end: u64)

  datatype EcnCounts = EcnCounts(ect0Count: u64, ect1Count: u64, ecnCeCount: u64)

  /** `frame::Frame`. Payload-carrying variants keep their payload as plain bytes; the
      translation never reads those bytes. */
  datatype Frame =
    | Padding(len: usize)
    | Ping
    | ACK(ackDelay: u64, ranges: seq<Range>, ecnCounts: Option<EcnCounts>)
    | ResetStream(streamId: u64, errorCode: u64, finalSize: u64)
    | StopSending(streamId: u64, errorCode: u64)
    | Crypto(cryptoOffset: u64, cryptoData: seq<u8>)
    | CryptoHeader(offset: u64, length: usize)
    | NewToken(token: seq<u8>)
    | Stream(streamId: u64, streamOffset: u64, streamData: seq<u8>, streamFin: bool)
    | StreamHeader(streamId: u64, offset: u64, length: usize, fin: bool)
    | MaxData(max: u64)
    | MaxStreamData(streamId: u64, max: u64)
    | MaxStreamsBidi(max: u64)
    | MaxStreamsUni(max: u64)
    | DataBlocked(limit: u64)
    | StreamDataBlocked(streamId: u64, limit: u64)
    | StreamsBlockedBidi(limit: u64)
    | StreamsBlockedUni(limit: u64)
    | NewConnectionId(seqNum: u64, retirePriorTo: u64, connId: seq<u8>, resetToken: seq<u8>)
    | RetireConnectionId(seqNum: u64)
    | PathChallenge(data: Bytes8)
    | PathResponse(data: Bytes8)
    | ConnectionClose(errorCode: u64, frameType: u64, reason: seq<u8>)
    | ApplicationClose(errorCode: u64, reason: seq<u8>)
    | HandshakeDone
    | Datagram(datagram: seq<u8>)
    | DatagramHeader(length: usize)
    | Extension(ty: u64, tag: u64)

  /** `packet::Epoch`. */
  datatype Epoch = Initial | Handshake | Application

  /** `packet::Type`. */
  datatype Type = Initial | Retry | Handshake | ZeroRTT | VersionNegotiation | Short

  /** The fields of `packet::Header` the translation reads. `firstByte` is what the header's
      `first_byte()` returns, taken as given. */
  datatype Header = Header(ty: Type, version: u32, pktNum: u64, pktNumLen: usize,
                           keyPhase: bool, firstByte: Option<u8>)

  /** The connection state the plugin accessor reaches. */
  datatype Connection = Connection(maxTxData: u64)
}

=== FILE: wrappers.dfy ===
/** Failure-compatible wrappers shared by every module of the model.
    `Result` mirrors Rust's `Result<T, E>`; `Option` mirrors `Option<T>`. */
module Wrappers {

  datatype Option<+T> = None | Some(value: T) {

    /** The contained value, or `default` when there is none (Rust's `unwrap_or`). */
    function UnwrapOr(default: T): T {
      match this
      case Some(v) => v
      case None => default
    }
  }

  datatype Result<+T, +E> = Ok(value: T) | Err(error: E) {

    predicate IsFailure() {
      Err?
    }

    function PropagateFailure<U>(): Result<U, E>
      requires Err?
    {
      Err(error)
    }

    function Extract(): T
      requires Ok?
    {
      value
    }
  }
}
